=== FILE: README.md ===
# Product page widgets: a verified model

`assets/pdp-scripts.js` adds interactivity to a product detail page. It has six widgets.
Once the document tree is abstracted away, each widget is a small deterministic state
machine over indices and active flags:

- **Media gallery** (`initPdpMediaGallery`). Items are a sequence of `is-active` flags. The
  state also holds the current index, the three optional counter nodes, which controls exist
  (prev/next buttons, swipe), and the swipe closure (`armed`, `startX`, `diffX`). `show`
  wraps by one step at either end. Each event is one transition in `MediaGallery.Handle`.
- **Swatches** (`initPdpSwatches`). Option groups hold tiles (an active flag and an optional
  `data-option-value`) and an optional label. A click makes exactly one tile active and may
  update the label.
- **Delivery date** (`initPdpDeliveryDate`). This is the ordinal-suffix rule plus the
  `"{day}{suffix} of {month} {year}"` format. Day, month name and year are inputs.
- **Recommendations relocation** (`mountRecosIntoSidebar`). Two first-match queries over a
  document order, then a move on an abstract document: elements with tag and classes, and
  an ordered child list per parent. Running it again is a no-op when the page has a single
  recommendations section, and moves a second section when it has two.
- **"Behind the ring" slider** (`initBehindSlider`). Slides carry an active flag, an
  `aria-hidden` attribute and an optional video with a playing/paused flag. The timer
  becomes a `timer` flag plus an explicit `Tick`.
- **"Customise" carousel** (`initCustomiseCarousel`). Slide flags and an optional dot row.
  `show` clamps, dot clicks jump, and `Tick` advances with wrap-around.

Modules: `Wrappers` (Option), `Decimal` (the `String(n)` rendering and its parser),
`IndexFlags` (wrap, clamp, exclusive flags, first/last flagged), then one module per widget.

Behaviours of the code that its comments do not spell out, each proved about the model:

- The gallery starts at the **last** pre-flagged item. The comment at line 72 speaks of "the
  active item", but the loop at lines 74-81 overwrites the index on every match
  (`LastPreFlaggedWins`).
- Initialising the slider can leave **several** slides active. The comment at line 285 reads
  ".is-active or fallback to first", but line 290 activates slide 0 as well as every
  pre-flagged slide, and the index is then always 0 (`InitMayActivateTwo`).
- Wrap-around is a single step, not a remainder. Requesting `i + total` lands on 0, not on
  `i`, for `1 <= i < total` (`WrapStepNotPeriodic`, `WrapStepIsNotModulo`).
- The swipe threshold is inclusive: a travel of exactly 40 px navigates
  (`SwipeThresholdIsInclusive`).
- A swatch updates its label only when the value attribute is present **and non-empty**
  (`EmptyValueKeepsLabel`).
- The carousel makes no initial `show` call, so until the first tick or click its slides and
  dots keep the flags the markup gave them (`CustomiseCarousel.Init`).

## Model

| member | source | states |
|---|---|---|
| `Decimal.Show` | assets/pdp-scripts.js:85 | `String(n)` for a count or index: at least one digit, digits only, a leading 0 only for 0 itself, one digit exactly below 10. |
| `Decimal.ShowInjective` | assets/pdp-scripts.js:85 | Two numbers render to the same text only when they are equal, so distinct positions always show distinct counters. |
| `Decimal.ParseShow` | assets/pdp-scripts.js:85 | Every number written into a counter, the total node or the date line is a canonical numeral that parses back to the same number. |
| `Decimal.ShowParse` | assets/pdp-scripts.js:85 | Every canonical numeral is the rendering of its value, so rendering is a bijection onto canonical numerals. |
| `IndexFlags.WrapStep` | assets/pdp-scripts.js:95-96 | Gallery/slider navigation always lands on a valid index: an in-range request is kept, one below 0 goes to the last index and one at or past the end goes to 0. |
| `IndexFlags.WrapStepIsModuloNearRange` | assets/pdp-scripts.js:95-96 | For every request from -1 to `total` (all that buttons, swipes and ticks produce), the single step equals the circular remainder. |
| `IndexFlags.WrapStepNotPeriodic` | assets/pdp-scripts.js:95-96 | Requesting `i + total` goes to 0, not to `i`, whenever `1 <= i < total`: the wrap is one step, not periodic. |
| `IndexFlags.Clamp` | assets/pdp-scripts.js:398-399 | Carousel navigation lands on the valid index nearest the request: 0 below the range, `total-1` above it. |
| `IndexFlags.Only` | assets/pdp-scripts.js:98-103 | Toggling `is-active` on `idx === i` over all items leaves exactly item i active. |
| `IndexFlags.ExactlyOneIffCountOne` | assets/pdp-scripts.js:98-103 | "Exactly item k is active" for some k holds iff the number of active items is one. |
| `IndexFlags.LastFlagged` | assets/pdp-scripts.js:73-81 | Returns the greatest flagged position with nothing flagged after it, or none when nothing is flagged. |
| `IndexFlags.FirstFlagged` | assets/pdp-scripts.js:307-315 | Returns the least flagged position with nothing flagged before it, or none when nothing is flagged (`findIndex`). |
| `MediaGallery.ParseCounterText` | assets/pdp-scripts.js:87 | The combined counter text "current/total" reads back as exactly those two numbers, with both halves canonical. |
| `MediaGallery.CounterTextUnique` | assets/pdp-scripts.js:87 | A combined text with canonical halves that reads as (a, b) is exactly the text the page writes for a and b. |
| `MediaGallery.UpdateCounter` | assets/pdp-scripts.js:83-89 | The current node, if present, reads `index+1` as a canonical numeral, so exactly `String(index+1)`. Otherwise the wrapper, if present, reads `index+1` and `total` with canonical halves, so exactly the combined text; when the current node exists the wrapper keeps its text. The total node is never touched. With neither node present nothing changes. Node presence is kept. (The three nodes are taken to be distinct and not nested; see Left out.) |
| `MediaGallery.Show` | assets/pdp-scripts.js:94-107 | `i < 0` goes to the last item, `i >= total` to the first, in-range `i` to itself. Afterwards exactly that item is active, and the counter is the input counter rewritten by `UpdateCounter` for the new index, so it shows it. |
| `MediaGallery.InitialIndex` | assets/pdp-scripts.js:73-81 | The starting index is the last pre-flagged item. It is 0 only when no item after 0 is flagged. |
| `MediaGallery.Init` | assets/pdp-scripts.js:53-110 | No gallery without items. Otherwise the total node reads the item count. The index is the last pre-flagged item, or 0 when none after 0 is flagged. The gallery is in its valid state: that item alone is active and the counter shows it. The current and wrapper nodes are present exactly when they were, and the wrapper keeps its text when a current node exists. |
| `MediaGallery.Classify` | assets/pdp-scripts.js:159-165 | A displacement strictly inside (-40, 40) does nothing, one of -40 or less advances, and one of 40 or more goes back. |
| `MediaGallery.Handle` | assets/pdp-scripts.js:113-166 | Every event keeps the gallery valid, and the counter is always the input counter rewritten for the resulting index. Buttons leave the gesture state alone and act only when present and step by one with wrap. Touch start/move never change the shown item. Touch start arms with displacement 0, only on a swipe-enabled gallery with a touch point; nothing else arms a gesture. Touch move records `x - startX` only while a gesture is armed and a touch point exists, and otherwise changes nothing. A touch end without an armed gesture changes nothing; with one it disarms and navigates per the classification. |
| `MediaGallery.TouchEndOnce` | assets/pdp-scripts.js:155-158 | A second touch end without a new touch start changes nothing, so one gesture navigates at most once. |
| `MediaGallery.TapDoesNotNavigate` | assets/pdp-scripts.js:137-159 | A touch start followed directly by a touch end leaves the shown item unchanged and disarms the gesture. |
| `MediaGallery.MoveWithoutStartDoesNothing` | assets/pdp-scripts.js:146-158 | A touch move followed by a touch end, with no touch start before them, leaves the gallery exactly as it was. |
| `MediaGallery.SwipeThresholdIsInclusive` | assets/pdp-scripts.js:133-165 | A full gesture of exactly 40 px left advances and 40 px right goes back; 39 px does nothing. |
| `MediaGallery.ThreeItemScenario` | assets/pdp-scripts.js:66-122 | Three unflagged items start at index 0. A wrapper-only counter shows "1/3"; with current/total nodes they show "1" and "3". Previous from 0 goes to 2. |
| `MediaGallery.LastPreFlaggedWins` | assets/pdp-scripts.js:73-81 | With items 0 and 2 pre-flagged, the gallery starts at 2 and only item 2 stays active. |
| `Swatches.Click` | assets/pdp-scripts.js:192-204 | After a click on tile t, exactly t is active in its group and the tile values are unchanged. The label becomes t's value iff the label exists and the value is non-empty; otherwise it is unchanged. |
| `Swatches.ClickInSidebar` | assets/pdp-scripts.js:183-206 | A click in one group leaves every other group exactly as it was. |
| `Swatches.ClickIdempotent` | assets/pdp-scripts.js:192-204 | Clicking the same tile twice leaves the group as one click does, tiles and label alike. |
| `Swatches.LastClickWins` | assets/pdp-scripts.js:192-204 | After two clicks the second tile alone is active. The label is the second tile's value when it has one, else what the first click left. |
| `Swatches.EmptyValueKeepsLabel` | assets/pdp-scripts.js:200-203 | Example: in a group with tiles "Gold" and "" and label "Silver", clicking the "" tile leaves "Silver", while clicking "Gold" writes "Gold". The general rule is `Click`'s. |
| `DeliveryDate.Suffix` | assets/pdp-scripts.js:225-232 | The suffix is always one of "st", "nd", "rd", "th" and never starts with a digit. |
| `DeliveryDate.SuffixIsEnglish` | assets/pdp-scripts.js:225-232 | The page's rule agrees with the English ordinal rule exactly when the number is not 111-113, 211-213, ...; hence for every day 1-31. |
| `DeliveryDate.SuffixTable` | assets/pdp-scripts.js:225-232 | 1st, 2nd, 3rd, 4th, 11th, 12th, 13th, 21st, 22nd, 23rd, 30th, 31st. |
| `DeliveryDate.TextLeadsWithDay` | assets/pdp-scripts.js:234 | The leading run of digits of the line parses to the day. |
| `DeliveryDate.TextReadsBack` | assets/pdp-scripts.js:234 | After the day come its suffix, " of " and the month. |
| `DeliveryDate.TextEndsWithYear` | assets/pdp-scripts.js:234 | The year's numeral starts right after the day, the suffix, " of ", the month and a space, and parses to the year. |
| `RecosMount.Remove` | assets/pdp-scripts.js:256 | Detaching a node keeps every other child without introducing duplicates. In a duplicate-free list the result is the list with that one position cut out, so the rest stay in order. |
| `RecosMount.Mount` | assets/pdp-scripts.js:245-258 | A missing sidebar or block, or a block already directly in the sidebar, is a no-op. Otherwise the sidebar's children become its old children followed by the block, and every other parent's children lose the block and keep their order. Every other node keeps its parent. The tree stays well formed. The block loses only the `section--pc-recos` class; every other element is unchanged. |
| `RecosMount.MoveChildren` | assets/pdp-scripts.js:256-257 | `appendChild` detaches the block from every child list, keeping the rest in order, and appends it to the sidebar's. |
| `RecosMount.MountIdempotent` | assets/pdp-scripts.js:254 | With the same two handles, a second move is a no-op: the parent check stops it. |
| `RecosMount.QueryAt` | assets/pdp-scripts.js:247 | The position of the first node in document order that matches the selector, with no match before it; none when nothing matches. |
| `RecosMount.Query` | assets/pdp-scripts.js:251 | `querySelector` returns a matching node of the document order, and null exactly when no node matches. |
| `RecosMount.Relocate` | assets/pdp-scripts.js:245-258 | The page-load step keeps the tree well formed, does nothing when either query finds nothing, and otherwise leaves the found block a child of the found sidebar. |
| `RecosMount.RelocateIdempotent` | assets/pdp-scripts.js:251-257 | With at most one recommendations section, running the step twice equals running it once; after a move no element answers the query any more. |
| `RecosMount.TwoSectionsMoveTwice` | assets/pdp-scripts.js:251-257 | With two sections, the first run moves one and a second run moves the other, so the step is not idempotent in general. |
| `RecosMount.MovedBlockIsSettled` | assets/pdp-scripts.js:251-257 | After a move the block no longer matches the page's recommendations query and is listed once among the sidebar's children. |
| `BehindSlider.SetActive` | assets/pdp-scripts.js:324-346 | A slide set active or inactive has `aria-hidden` equal to the negation of its flag and its video playing iff active. |
| `BehindSlider.Init` | assets/pdp-scripts.js:282-356 | No slider without slides. Otherwise slide j is active iff it was pre-flagged or j = 0, and every slide's attribute and video agree with its flag. The index is 0 and a timer exists iff there are two or more slides. |
| `BehindSlider.Show` | assets/pdp-scripts.js:320-349 | Wraps like the gallery. Afterwards exactly slide `index` is active with `aria-hidden` "false" and its video playing; every other slide is hidden and paused. |
| `BehindSlider.Tick` | assets/pdp-scripts.js:351-356 | With a timer a tick shows the next slide with a one-step wrap: exactly that slide is active, every slide's `aria-hidden` is the negation of its flag and its video plays exactly when active, and no video appears or disappears. Without a timer a tick changes nothing. |
| `BehindSlider.TickAdvancesCyclically` | assets/pdp-scripts.js:351-356 | From a valid index a tick moves to `(index+1) mod total` with exactly that slide active. |
| `BehindSlider.InitMayActivateTwo` | assets/pdp-scripts.js:286-315 | A pre-flagged slide 1 stays active beside slide 0 after initialisation, with index 0 and slide 1's video playing. The first tick leaves only slide 1 active. |
| `BehindSlider.SingleSlideStays` | assets/pdp-scripts.js:351-356 | A single slide gets no timer and stays active. |
| `CustomiseCarousel.Init` | assets/pdp-scripts.js:383-392 | No carousel without slides. Otherwise the index is 0, slides and dots keep their markup flags, and a timer exists iff there are two or more slides. |
| `CustomiseCarousel.MarkDot` | assets/pdp-scripts.js:406-413 | All dots are cleared and dot k alone is set when it exists; an out-of-range k leaves all dots off. |
| `CustomiseCarousel.Show` | assets/pdp-scripts.js:397-416 | The index becomes the clamped request and exactly that slide is active. When dots exist, dot j is set iff j is the index. |
| `CustomiseCarousel.ClickDot` | assets/pdp-scripts.js:419-428 | A click on a dot that has a slide shows that slide and lights that dot. A dot past the last slide shows the last slide. Afterwards exactly one slide is active and dot j is lit iff j is the index. |
| `CustomiseCarousel.Tick` | assets/pdp-scripts.js:431-437 | With a timer a tick moves to `(index+1) mod total` and leaves exactly one slide active, with dot j lit iff j is the new index; without one it changes nothing. The dots exist exactly when they did, with the same count. |
| `CustomiseCarousel.Ticks` | assets/pdp-scripts.js:431-437 | After one or more ticks with a timer exactly one slide is active and exactly its dot is lit, and from a valid index the index stays in range. The dot row keeps its presence and size. |
| `CustomiseCarousel.TicksCycle` | assets/pdp-scripts.js:431-437 | n ticks from a valid index land on `(index+n) mod total`. |
| `CustomiseCarousel.FourSlidesFiveTicks` | assets/pdp-scripts.js:431-437 | Four slides starting at 0 visit 1, 2, 3, 0, 1 on five ticks. |
| `CustomiseCarousel.SingleSlideNoTimer` | assets/pdp-scripts.js:431-437 | A single slide gets no timer; ticking leaves the carousel unchanged. |
| `CustomiseCarousel.ExtraDotClampsToLastSlide` | assets/pdp-scripts.js:397-428 | With three dots and two slides, clicking dot 2 shows slide 1 and lights dot 1, not dot 2. |

Four helpers carry no contract of their own; other rows state what they produce:

- `DeliveryDate.Text`, the line written at assets/pdp-scripts.js:234: `TextLeadsWithDay`, `TextReadsBack` and `TextEndsWithYear`.
- `RecosMount.Move`, the `appendChild` and class removal at lines 256-257: `MoveChildren` and `Mount`.
- `MediaGallery.CounterText`, the combined text `String(index + 1) + "/" + String(total)` at line 87: `ParseCounterText` and `CounterTextUnique`.
- `BehindSlider.HiddenText`, the `aria-hidden` value written at lines 293, 326 and 339: `SetActive`, `Init`, `Show` and `Tick`, through the `Coherent` predicate.

## Left out

- Apart from the relocation's two queries, document queries, selector matching, listener registration and the `DOMContentLoaded` wiring (lines 17-38, 264-274, 363-371) are browser plumbing. Each widget instance is modelled on its own; the elements a query would find are inputs, as sequences of flags or `Option` node handles.
- `setInterval` periods (11000 ms and 4500 ms) and timer lifetimes are not modelled. A timer is a `timer` flag, and one firing is an explicit `Tick`.
- The `window.matchMedia("(max-width: 1099px)")` test is not modelled; its outcome is the `Controls.swipe` flag.
- Date arithmetic (`setDate(+7)`, month rollover, local time) and `toLocaleString` month names are foreign library calls. Day, month name and year are inputs, and the year is taken as non-negative.
- The video `play()` promise, its swallowed rejection and the `typeof` checks are asynchronous browser behaviour. A video's `playing` flag records whether the last call was `play()` or `pause()`.
- Touch event objects are reduced to the first touch point's `clientX`, or `None` for an empty touch list. `clientX` is a double in the browser; the model takes whole pixels, so fractional displacements near the 40 px threshold are not modelled.
- `MediaGallery.UpdateCounter`: treats the current, total and wrapper nodes as three separate elements. If the current or total node sat inside the wrapper, writing the wrapper's `textContent` would remove them, and "the total node is never touched" would not hold.
- `Decimal.Show`: does not model JavaScript's exponent notation for numbers of 10^21 and above, which counts, indices, days and years never reach.
- `RecosMount.Mount`: requires the sidebar and the block to be different elements. It does not model the DOM's `HierarchyRequestError` when the sidebar lies inside the block.
- `RecosMount.MountIdempotent`: holds the two query results fixed. Re-running the queries is modelled by `RecosMount.RelocateIdempotent`.
- `RecosMount.RelocateIdempotent`: assumes a single matching recommendations section. With two, a second run moves the other one (`TwoSectionsMoveTwice`). It also keeps the document order of the first run for the second.
- `RecosMount.Query`: the document order is an input listing of node ids. It is not derived from the child lists, and CSS selector matching is reduced to the two class tests the page uses.
- `BehindSlider.Show`: omits the `if (!next) return;` branch, which cannot be taken because the wrapped index is always in range.

=== FILE: behind_slider.dfy ===
/** The auto-rotating "Behind the ring" slider: slides that may each hold a video, shown one
    at a time with `aria-hidden` kept as the negation of the active flag, and a timer that
    advances one slide per tick when there is more than one slide. */
module BehindSlider {
  import opened Wrappers
  import opened IndexFlags

  /** A slide's video, if it has one: `playing` is true when the last call made on it was
      `play()` and false when it was `pause()`. */
  datatype Video = NoVideo | Video(playing: bool)

  /** A slide: whether it carries `is-active`, its `aria-hidden` attribute (`None` while the
      attribute is absent) and its video. */
  datatype Slide = Slide(active: bool, ariaHidden: Option<string>, video: Video)

  datatype Slider = Slider(slides: seq<Slide>, index: int, timer: bool)

  /** The `aria-hidden` text for a slide whose active flag is `active`. */
  function HiddenText(active: bool): string {
    if active then "false" else "true"
  }

  /** A slide whose attribute and video agree with its active flag: hidden exactly when
      inactive, and its video playing exactly when active. */
  predicate Coherent(s: Slide) {
    && s.ariaHidden == Some(HiddenText(s.active))
    && (s.video.Video? ==> s.video.playing == s.active)
  }

  function Actives(slides: seq<Slide>): (r: seq<bool>)
    ensures |r| == |slides|
    ensures forall j :: 0 <= j < |r| ==> r[j] == slides[j].active
  {
    seq(|slides|, j requires 0 <= j < |slides| => slides[j].active)
  }

  /** The slide as `show` leaves it: active or not, with the attribute set to match and its
      video played or paused to match. */
  function SetActive(s: Slide, active: bool): (r: Slide)
    ensures Coherent(r) && r.active == active
    ensures r.video.Video? <==> s.video.Video?
  {
    Slide(active, Some(HiddenText(active)), if s.video.Video? then Video(active) else NoVideo)
  }

  /** The slider a section sets up, `None` when it has no slides. Slide 0 and every slide
      already flagged active become active, all others inactive; the index is the first
      active slide, which is therefore always 0; the timer exists only for two or more
      slides. */
  function Init(slides: seq<Slide>): (r: Option<Slider>)
    ensures r.None? <==> |slides| == 0
    ensures r.Some? ==> |r.value.slides| == |slides| && r.value.index == 0
    ensures r.Some? ==> (r.value.timer <==> |slides| > 1)
    ensures r.Some? ==> forall j :: 0 <= j < |slides| ==>
              && Coherent(r.value.slides[j])
              && (r.value.slides[j].active <==> slides[j].active || j == 0)
              && (r.value.slides[j].video.Video? <==> slides[j].video.Video?)
  {
    if |slides| == 0 then None
    else
      var init := seq(|slides|, j requires 0 <= j < |slides| => SetActive(slides[j], slides[j].active || j == 0));
      var first := FirstFlagged(Actives(init));
      Some(Slider(init, if first.Some? then first.value else 0, |slides| > 1))
  }

  /** Shows slide `i`, wrapping by one step at either end: afterwards exactly that slide is
      active, shown and playing, and every other slide is inactive, hidden and paused. */
  function Show(sl: Slider, i: int): (r: Slider)
    requires |sl.slides| > 0
    ensures |r.slides| == |sl.slides| && r.timer == sl.timer
    ensures r.index == WrapStep(i, |sl.slides|)
    ensures ExactlyOne(Actives(r.slides), r.index)
    ensures forall j :: 0 <= j < |r.slides| ==> Coherent(r.slides[j])
    ensures forall j :: 0 <= j < |r.slides| ==> (r.slides[j].video.Video? <==> sl.slides[j].video.Video?)
  {
    var k := WrapStep(i, |sl.slides|);
    var slides := seq(|sl.slides|, j requires 0 <= j < |sl.slides| => SetActive(sl.slides[j], j == k));
    Slider(slides, k, sl.timer)
  }

  /** One timer tick: `show` of the next slide, wrapping to the first after the last, so the
      new slide alone is active, shown and playing. Without a timer nothing ever ticks. */
  function Tick(sl: Slider): (r: Slider)
    requires |sl.slides| > 0
    ensures |r.slides| == |sl.slides| && r.timer == sl.timer
    ensures !sl.timer ==> r == sl
    ensures sl.timer ==> r.index == WrapStep(sl.index + 1, |sl.slides|) && ExactlyOne(Actives(r.slides), r.index)
    ensures sl.timer ==> forall j :: 0 <= j < |r.slides| ==> Coherent(r.slides[j])
    ensures forall j :: 0 <= j < |r.slides| ==> (r.slides[j].video.Video? <==> sl.slides[j].video.Video?)
  {
    if sl.timer then Show(sl, sl.index + 1) else sl
  }

  /** From any valid position a tick moves to the cyclically next slide. */
  lemma TickAdvancesCyclically(sl: Slider)
    requires |sl.slides| > 1 && sl.timer && 0 <= sl.index < |sl.slides|
    ensures Tick(sl).index == (sl.index + 1) % |sl.slides|
    ensures ExactlyOne(Actives(Tick(sl).slides), Tick(sl).index)
  {
    WrapStepIsModuloNearRange(sl.index + 1, |sl.slides|);
  }

  /** Initialisation can leave more than one slide active: a pre-flagged slide stays active
      next to slide 0, and the slider still reports index 0. The first tick restores a
      single active slide. */
  lemma InitMayActivateTwo()
    ensures var r := Init([Slide(false, None, NoVideo), Slide(true, None, Video(false))]);
            && r.Some?
            && Actives(r.value.slides) == [true, true]
            && r.value.index == 0
            && r.value.slides[1].video == Video(true)
            && Actives(Tick(r.value).slides) == [false, true]
  {
    var r := Init([Slide(false, None, NoVideo), Slide(true, None, Video(false))]);
    assert Actives(r.value.slides) == [r.value.slides[0].active, r.value.slides[1].active];
    var t := Tick(r.value);
    assert Actives(t.slides) == [t.slides[0].active, t.slides[1].active];
  }

  /** A single slide gets no timer and stays active for good. */
  lemma SingleSlideStays(s: Slide)
    ensures var r := Init([s]);
            r.Some? && !r.value.timer && Tick(r.value) == r.value && r.value.slides[0].active
  {
  }
}

=== FILE: customise_carousel.dfy ===
/** The "Customise" carousel: slides with an optional row of dots, a clamping `show`, dot
    clicks that jump to a slide, and a timer whose tick advances one slide with wrap-around
    when there is more than one slide. */
module CustomiseCarousel {
  import opened Wrappers
  import opened IndexFlags

  /** `dots` is `None` when the dots container is absent; `timer` records whether the
      auto-advance interval was set up. */
  datatype Carousel = Carousel(slides: seq<bool>, dots: Option<seq<bool>>, index: int, timer: bool)

  /** The carousel a section sets up, `None` when it has no slides. The index starts at 0
      and nothing is shown: the slides and dots keep the flags the markup gave them. */
  function Init(slides: seq<bool>, dots: Option<seq<bool>>): (r: Option<Carousel>)
    ensures r.None? <==> |slides| == 0
    ensures r.Some? ==> r.value.slides == slides && r.value.dots == dots && r.value.index == 0
    ensures r.Some? ==> (r.value.timer <==> |slides| > 1)
  {
    if |slides| == 0 then None else Some(Carousel(slides, dots, 0, |slides| > 1))
  }

  /** The dots after `show` settled on `k`: all cleared, and dot `k` set when there is one. */
  function MarkDot(dots: seq<bool>, k: nat): (r: seq<bool>)
    ensures |r| == |dots|
    ensures k < |dots| ==> ExactlyOne(r, k)
    ensures k >= |dots| ==> forall j :: 0 <= j < |r| ==> !r[j]
  {
    seq(|dots|, j => j == k)
  }

  /** Shows slide `i`, clamped into range: exactly that slide is active, the dots mirror it
      (or are all off when there is no dot for it), and the index records it. */
  function Show(c: Carousel, i: int): (r: Carousel)
    requires |c.slides| > 0
    ensures |r.slides| == |c.slides| && r.timer == c.timer
    ensures r.index == Clamp(i, |c.slides|)
    ensures ExactlyOne(r.slides, r.index)
    ensures r.dots.Some? <==> c.dots.Some?
    ensures c.dots.Some? ==> |r.dots.value| == |c.dots.value|
    ensures c.dots.Some? ==> forall j :: 0 <= j < |r.dots.value| ==> (r.dots.value[j] <==> j == r.index)
  {
    var k := Clamp(i, |c.slides|);
    var dots := if c.dots.Some? then Some(MarkDot(c.dots.value, k)) else None;
    Carousel(Only(|c.slides|, k), dots, k, c.timer)
  }

  /** A click on dot `d` jumps to slide `d`, clamped like any other request. */
  function ClickDot(c: Carousel, d: nat): (r: Carousel)
    requires |c.slides| > 0 && c.dots.Some? && d < |c.dots.value|
    ensures r.dots.Some? && |r.dots.value| == |c.dots.value| && |r.slides| == |c.slides|
    ensures d < |c.slides| ==> r.index == d && r.dots.value[d] && r.slides[d]
    ensures d >= |c.slides| ==> r.index == |c.slides| - 1
    ensures ExactlyOne(r.slides, r.index)
    ensures forall j :: 0 <= j < |r.dots.value| ==> (r.dots.value[j] <==> j == r.index)
  {
    Show(c, d)
  }

  /** One timer tick: the next slide, or the first after the last. Without a timer nothing
      ever ticks. */
  function Tick(c: Carousel): (r: Carousel)
    requires |c.slides| > 0
    ensures |r.slides| == |c.slides| && r.timer == c.timer
    ensures !c.timer ==> r == c
    ensures c.timer && 0 <= c.index < |c.slides| ==> r.index == (c.index + 1) % |c.slides|
    ensures c.timer ==> ExactlyOne(r.slides, r.index)
    ensures r.dots.Some? <==> c.dots.Some?
    ensures c.dots.Some? ==> |r.dots.value| == |c.dots.value|
    ensures c.timer && c.dots.Some? ==> forall j :: 0 <= j < |r.dots.value| ==> (r.dots.value[j] <==> j == r.index)
  {
    if c.timer then
      var next := if c.index + 1 >= |c.slides| then 0 else c.index + 1;
      Show(c, next)
    else c
  }

  /** `n` ticks in a row: after at least one tick with a timer, exactly one slide is
      active, the dots mirror it, and the index stays in range. */
  function Ticks(c: Carousel, n: nat): (r: Carousel)
    requires |c.slides| > 0
    ensures |r.slides| == |c.slides| && r.timer == c.timer
    ensures r.dots.Some? <==> c.dots.Some?
    ensures c.timer && 0 <= c.index < |c.slides| ==> 0 <= r.index < |c.slides|
    ensures c.timer && n > 0 ==> ExactlyOne(r.slides, r.index)
    ensures c.dots.Some? ==> |r.dots.value| == |c.dots.value|
    ensures c.timer && n > 0 && c.dots.Some? ==>
              forall j :: 0 <= j < |r.dots.value| ==> (r.dots.value[j] <==> j == r.index)
    decreases n
  {
    if n == 0 then c else Ticks(Tick(c), n - 1)
  }

  /** With a timer, from a valid index, `n` ticks land `n` slides further on, cyclically. */
  lemma {:induction false} TicksCycle(c: Carousel, n: nat)
    requires |c.slides| > 0 && c.timer && 0 <= c.index < |c.slides|
    ensures Ticks(c, n).index == (c.index + n) % |c.slides|
    decreases n
  {
    if n > 0 {
      var t := Tick(c);
      TicksCycle(t, n - 1);
      var m := |c.slides|;
      if c.index + 1 == m {
        assert t.index == 0;
        ModPlusPeriod(n - 1, m);
      }
    }
  }

  lemma ModPlusPeriod(x: nat, m: nat)
    requires m > 0
    ensures (x + m) % m == x % m
  {
    var q, r := x / m, x % m;
    assert x + m == (q + 1) * m + r;
    ModUnique(x + m, q + 1, r, m);
  }

  lemma ModUnique(a: int, q: int, r: int, m: nat)
    requires m > 0 && 0 <= r < m && a == q * m + r
    ensures a % m == r
  {
    var k := q - a / m;
    assert k * m == a % m - r;
    MulBound(k, m);
  }

  lemma MulBound(k: int, m: nat)
    requires m > 0
    ensures k >= 1 ==> k * m >= m
    ensures k <= -1 ==> k * m <= 0 - m as int
  {
    assert k * m == (k - 1) * m + m;
    assert k * m == (k + 1) * m - m;
  }

  /** Four slides, starting at 0: five ticks visit 1, 2, 3, 0 and 1. */
  lemma FourSlidesFiveTicks()
    ensures var c := Init([true, false, false, false], None).value;
            && Ticks(c, 1).index == 1 && Ticks(c, 2).index == 2 && Ticks(c, 3).index == 3
            && Ticks(c, 4).index == 0 && Ticks(c, 5).index == 1
  {
    var c := Init([true, false, false, false], None).value;
    TicksCycle(c, 1);
    TicksCycle(c, 2);
    TicksCycle(c, 3);
    TicksCycle(c, 4);
    TicksCycle(c, 5);
  }

  /** A single slide gets no timer: ticking leaves it as it is. */
  lemma SingleSlideNoTimer(s: bool, dots: Option<seq<bool>>)
    ensures var c := Init([s], dots).value;
            !c.timer && Ticks(c, 3) == c
  {
  }

  /** More dots than slides: clicking a dot past the last slide shows the last slide and
      lights that slide's dot, not the clicked one. */
  lemma ExtraDotClampsToLastSlide()
    ensures var c := Carousel([true, false], Some([true, false, false]), 0, true);
            var r := ClickDot(c, 2);
            r.index == 1 && r.slides == [false, true] && r.dots == Some([false, true, false])
  {
    var c := Carousel([true, false], Some([true, false, false]), 0, true);
    var r := ClickDot(c, 2);
    assert r.slides == [r.slides[0], r.slides[1]];
    assert r.dots.value == [r.dots.value[0], r.dots.value[1], r.dots.value[2]];
  }
}

=== FILE: decimal.dfy ===
/** Decimal rendering of non-negative integers, as JavaScript's `String(n)` produces it for
    the small counts, indices, days and years the page writes into text nodes, together with
    the parser that reads such a rendering back. */
module Decimal {
  import opened Wrappers

  predicate IsDigit(c: char) {
    '0' <= c <= '9'
  }

  predicate AllDigits(s: string) {
    forall k :: 0 <= k < |s| ==> IsDigit(s[k])
  }

  function DigitChar(d: nat): (c: char)
    requires d < 10
    ensures IsDigit(c)
  {
    ('0' as int + d) as char
  }

  function DigitValue(c: char): (d: nat)
    requires IsDigit(c)
    ensures d < 10
    ensures DigitChar(d) == c
  {
    c as int - '0' as int
  }

  /** The decimal numeral of `n`: at least one digit, no leading zero. */
  function Show(n: nat): (s: string)
    ensures |s| >= 1
    ensures AllDigits(s)
    ensures s[0] == '0' ==> n == 0
    ensures n < 10 <==> |s| == 1
    decreases n
  {
    if n < 10 then [DigitChar(n)] else Show(n / 10) + [DigitChar(n % 10)]
  }

  /** The number a non-empty run of digits denotes. */
  function Value(s: string): nat
    requires |s| >= 1 && AllDigits(s)
    decreases |s|
  {
    if |s| == 1 then DigitValue(s[0])
    else Value(s[..|s| - 1]) * 10 + DigitValue(s[|s| - 1])
  }

  /** Reads a decimal numeral; `None` for the empty string or any non-digit. */
  function Parse(s: string): Option<nat> {
    if |s| >= 1 && AllDigits(s) then Some(Value(s)) else None
  }

  /** A numeral in canonical form: no leading zero unless it is the single digit 0. */
  predicate Canonical(s: string) {
    |s| >= 1 && AllDigits(s) && (s[0] == '0' ==> |s| == 1)
  }

  /** Every rendering reads back as the number rendered. */
  lemma {:induction false} ParseShow(n: nat)
    ensures Canonical(Show(n))
    ensures Parse(Show(n)) == Some(n)
    decreases n
  {
    var s := Show(n);
    if n >= 10 {
      ParseShow(n / 10);
      assert s[..|s| - 1] == Show(n / 10);
      assert DigitValue(s[|s| - 1]) == n % 10;
    }
  }

  lemma {:induction false} LeadingNonZeroIsPositive(s: string)
    requires Canonical(s) && s[0] != '0'
    ensures Value(s) > 0
    decreases |s|
  {
    if |s| > 1 {
      LeadingNonZeroIsPositive(s[..|s| - 1]);
    }
  }

  /** Every canonical numeral is the rendering of the number it denotes, so `Show` is
      a bijection between `nat` and canonical numerals. */
  lemma {:induction false} ShowParse(s: string)
    requires Canonical(s)
    ensures Show(Value(s)) == s
    decreases |s|
  {
    if |s| > 1 {
      var p := s[..|s| - 1];
      LeadingNonZeroIsPositive(p);
      ShowParse(p);
      var v := Value(s);
      assert v / 10 == Value(p) && v % 10 == DigitValue(s[|s| - 1]);
      assert Show(v) == Show(Value(p)) + [DigitChar(DigitValue(s[|s| - 1]))];
    }
  }

  /** Two numbers render alike only when they are equal. */
  lemma ShowInjective(m: nat, n: nat)
    ensures Show(m) == Show(n) <==> m == n
  {
    ParseShow(m);
    ParseShow(n);
  }
}

=== FILE: delivery_date.dfy ===
/** The delivery-date line: a day of the month with its English ordinal suffix, the month's
    name and the year, as "{day}{suffix} of {month} {year}". The calendar arithmetic and the
    month's name come from the browser's date library and are inputs here. */
module DeliveryDate {
  import opened Wrappers
  import Decimal

  /** The suffix the page picks for `day`, testing the last digit and the three exceptions
      11, 12 and 13 as literal values. */
  function Suffix(day: nat): (r: string)
    ensures |r| == 2 && !Decimal.IsDigit(r[0])
    ensures r == "st" || r == "nd" || r == "rd" || r == "th"
  {
    if day % 10 == 1 && day != 11 then "st"
    else if day % 10 == 2 && day != 12 then "nd"
    else if day % 10 == 3 && day != 13 then "rd"
    else "th"
  }

  /** English ordinal suffixes as the language has them: "th" for every number whose last
      two digits are 11, 12 or 13, otherwise chosen by the last digit. */
  function EnglishOrdinalSuffix(n: nat): string {
    if 11 <= n % 100 <= 13 then "th"
    else if n % 10 == 1 then "st"
    else if n % 10 == 2 then "nd"
    else if n % 10 == 3 then "rd"
    else "th"
  }

  /** The page's rule is the English rule exactly for the numbers that are not 111-113,
      211-213, ... ; in particular for every day of a month. */
  lemma SuffixIsEnglish(day: nat)
    ensures Suffix(day) == EnglishOrdinalSuffix(day) <==> !(day >= 100 && 11 <= day % 100 <= 13)
    ensures 1 <= day <= 31 ==> Suffix(day) == EnglishOrdinalSuffix(day)
  {
  }

  /** The days of a month that the exceptions and the mod-10 branches single out. */
  lemma SuffixTable()
    ensures Suffix(1) == "st" && Suffix(2) == "nd" && Suffix(3) == "rd" && Suffix(4) == "th"
    ensures Suffix(11) == "th" && Suffix(12) == "th" && Suffix(13) == "th"
    ensures Suffix(21) == "st" && Suffix(22) == "nd" && Suffix(23) == "rd"
    ensures Suffix(30) == "th" && Suffix(31) == "st"
  {
  }

  /** The text written into the delivery-date node. */
  function Text(day: nat, month: string, year: nat): string {
    Decimal.Show(day) + Suffix(day) + " of " + month + " " + Decimal.Show(year)
  }

  /** The longest run of digits at the start of `s`. */
  function LeadingDigits(s: string): (r: string)
    ensures r <= s && Decimal.AllDigits(r)
    ensures |r| < |s| ==> !Decimal.IsDigit(s[|r|])
    decreases |s|
  {
    if |s| == 0 || !Decimal.IsDigit(s[0]) then [] else [s[0]] + LeadingDigits(s[1..])
  }

  lemma {:induction false} LeadingDigitsOfNumeral(d: string, rest: string)
    requires Decimal.AllDigits(d)
    requires |rest| > 0 && !Decimal.IsDigit(rest[0])
    ensures LeadingDigits(d + rest) == d
    decreases |d|
  {
    if |d| > 0 {
      assert (d + rest)[1..] == d[1..] + rest;
      LeadingDigitsOfNumeral(d[1..], rest);
    } else {
      assert d + rest == rest;
    }
  }

  /** The delivery text reads back: its leading number is the day. */
  lemma TextLeadsWithDay(day: nat, month: string, year: nat)
    ensures Decimal.Parse(LeadingDigits(Text(day, month, year))) == Some(day)
  {
    var d := Decimal.Show(day);
    var rest := Suffix(day) + " of " + month + " " + Decimal.Show(year);
    Layout(d, Suffix(day), month, Decimal.Show(year));
    LeadingDigitsOfNumeral(d, rest);
    Decimal.ParseShow(day);
  }

  /** After the day come its suffix, " of " and the month. */
  lemma TextReadsBack(day: nat, month: string, year: nat)
    ensures var t := Text(day, month, year);
            var n := |Decimal.Show(day)|;
            && t[n..n + 2] == Suffix(day)
            && t[n + 2..n + 6] == " of "
            && t[n + 6..n + 6 + |month|] == month
  {
    var d, sfx, y := Decimal.Show(day), Suffix(day), Decimal.Show(year);
    Layout(d, sfx, month, y);
  }

  /** The text ends with a space and the year's numeral. */
  lemma TextEndsWithYear(day: nat, month: string, year: nat)
    ensures var t := Text(day, month, year);
            var m := |t| - |Decimal.Show(year)|;
            && m == |Decimal.Show(day)| + 7 + |month|
            && t[m - 1] == ' '
            && Decimal.Parse(t[m..]) == Some(year)
  {
    var d, sfx, y := Decimal.Show(day), Suffix(day), Decimal.Show(year);
    Layout(d, sfx, month, y);
    Decimal.ParseShow(year);
  }

  lemma Layout(d: string, sfx: string, month: string, y: string)
    requires |sfx| == 2
    ensures var t := d + sfx + " of " + month + " " + y;
            var n := |d|;
            && t == d + (sfx + " of " + month + " " + y)
            && t[n..n + 2] == sfx
            && t[n + 2..n + 6] == " of "
            && t[n + 6..n + 6 + |month|] == month
            && t[n + 6 + |month|] == ' '
            && t[n + 7 + |month|..] == y
  {
  }
}

=== FILE: index_flags.dfy ===
/** Index arithmetic and active-flag sets shared by the gallery, the slider and the carousel.
    A widget's items are abstracted to a sequence of flags, `true` where the item carries the
    `is-active` class. */
module IndexFlags {
  import opened Wrappers

  /** `k` is the one and only flagged position of `s`. */
  predicate ExactlyOne(s: seq<bool>, k: int) {
    0 <= k < |s| && forall j :: 0 <= j < |s| ==> (s[j] <==> j == k)
  }

  /** The flags after `classList.toggle("is-active", idx === k)` on every item. */
  function Only(n: nat, k: int): (r: seq<bool>)
    requires 0 <= k < n
    ensures |r| == n
    ensures ExactlyOne(r, k)
  {
    seq(n, j => j == k)
  }

  /** Number of flagged positions. */
  function CountTrue(s: seq<bool>): nat
    decreases |s|
  {
    if |s| == 0 then 0 else (if s[0] then 1 else 0) + CountTrue(s[1..])
  }

  /** Having exactly one flagged position is the same as having a count of one. */
  lemma {:induction false} ExactlyOneIffCountOne(s: seq<bool>)
    ensures (exists k :: ExactlyOne(s, k)) <==> CountTrue(s) == 1
    decreases |s|
  {
    if |s| > 0 {
      var t := s[1..];
      ExactlyOneIffCountOne(t);
      if exists k :: ExactlyOne(s, k) {
        var k :| ExactlyOne(s, k);
        if k == 0 {
          NoneFlaggedCountZero(t);
        } else {
          assert ExactlyOne(t, k - 1);
        }
      }
      if CountTrue(s) == 1 {
        if s[0] {
          CountZeroNoneFlagged(t);
          assert ExactlyOne(s, 0);
        } else {
          var k :| ExactlyOne(t, k);
          assert ExactlyOne(s, k + 1);
        }
      }
    }
  }

  lemma {:induction false} NoneFlaggedCountZero(s: seq<bool>)
    requires forall j :: 0 <= j < |s| ==> !s[j]
    ensures CountTrue(s) == 0
    decreases |s|
  {
    if |s| > 0 {
      NoneFlaggedCountZero(s[1..]);
    }
  }

  lemma {:induction false} CountZeroNoneFlagged(s: seq<bool>)
    requires CountTrue(s) == 0
    ensures forall j :: 0 <= j < |s| ==> !s[j]
    decreases |s|
  {
    if |s| > 0 {
      CountZeroNoneFlagged(s[1..]);
      forall j | 1 <= j < |s| ensures !s[j] {
        assert s[j] == s[1..][j - 1];
      }
    }
  }

  /** The gallery's and the slider's navigation bound: a request below 0 goes to the last
      index and a request at or past the end goes to 0; one step, not a remainder. */
  function WrapStep(i: int, total: nat): (r: nat)
    requires total > 0
    ensures r < total
    ensures 0 <= i < total ==> r == i
    ensures i < 0 ==> r == total - 1
    ensures i >= total ==> r == 0
  {
    if i < 0 then total - 1 else if i >= total then 0 else i
  }

  /** On the requests the buttons, swipes and timers can produce, from -1 to `total`,
      the single step is the circular remainder. */
  lemma WrapStepIsModuloNearRange(i: int, total: nat)
    requires total > 0 && -1 <= i <= total
    ensures WrapStep(i, total) == i % total
  {
    if i == -1 {
      assert (-1) % total == total - 1;
    } else if i == total {
      assert total % total == 0;
    }
  }

  /** Further out it is not: every negative request lands on the last index, so -2 with
      three items goes to 2 where the remainder is 1. */
  lemma WrapStepIsNotModulo()
    ensures WrapStep(-2, 3) == 2 && (-2) % 3 == 1
    ensures WrapStep(4, 3) == 0 && 4 % 3 == 1
  {
  }

  /** In particular, requesting `i + total` does not land where requesting `i` does once
      `i` is past the first index. */
  lemma WrapStepNotPeriodic(i: int, total: nat)
    requires total >= 2 && 1 <= i < total
    ensures WrapStep(i + total, total) == 0
    ensures WrapStep(i + total, total) != WrapStep(i, total)
  {
  }

  /** The carousel's navigation bound: the valid index nearest to the request. */
  function Clamp(i: int, total: nat): (r: nat)
    requires total > 0
    ensures r < total
    ensures forall j :: 0 <= j < total ==> Dist(r, i) <= Dist(j, i)
    ensures i < 0 ==> r == 0
    ensures i >= total ==> r == total - 1
  {
    if i < 0 then 0 else if i >= total then total - 1 else i
  }

  function Dist(a: int, b: int): nat {
    if a <= b then b - a else a - b
  }

  /** The last flagged position, as a `forEach` that overwrites the index on each match
      leaves it. */
  function LastFlagged(s: seq<bool>): (r: Option<nat>)
    ensures r.Some? ==> r.value < |s| && s[r.value] && forall j :: r.value < j < |s| ==> !s[j]
    ensures r.None? ==> forall j :: 0 <= j < |s| ==> !s[j]
    decreases |s|
  {
    if |s| == 0 then None
    else if s[|s| - 1] then Some(|s| - 1)
    else LastFlagged(s[..|s| - 1])
  }

  /** The first flagged position, as `Array.prototype.findIndex` finds it. */
  function FirstFlagged(s: seq<bool>): (r: Option<nat>)
    ensures r.Some? ==> r.value < |s| && s[r.value] && forall j :: 0 <= j < r.value ==> !s[j]
    ensures r.None? ==> forall j :: 0 <= j < |s| ==> !s[j]
    decreases |s|
  {
    if |s| == 0 then None
    else if s[0] then Some(0)
    else match FirstFlagged(s[1..])
      case None => None
      case Some(k) => Some(k + 1)
  }
}

=== FILE: media_gallery.dfy ===
/** The product media gallery: an ordered set of media items of which one is shown, a
    counter, optional previous/next buttons and, on narrow viewports, a horizontal swipe. */
module MediaGallery {
  import opened Wrappers
  import opened IndexFlags
  import Decimal

  /** Minimum horizontal travel, in CSS pixels, for a swipe to navigate. */
  const SwipeThreshold: nat := 40

  /** The three optional counter nodes; `None` when the node is absent, otherwise its text. */
  datatype Counter = Counter(current: Option<string>, total: Option<string>, wrapper: Option<string>)

  /** Which controls exist: the two buttons, and whether swipe handlers were attached
      (the viewport matched the narrow-screen query when the page loaded). */
  datatype Controls = Controls(prev: bool, next: bool, swipe: bool)

  /** The swipe handler's closure variables: armed by a touch start, the start position
      and the displacement seen by the last touch move. */
  datatype Touch = Touch(armed: bool, startX: int, diffX: int)

  datatype Gallery = Gallery(items: seq<bool>, index: int, counter: Counter, controls: Controls, touch: Touch)

  /** A user event on the gallery. A touch carries the first touch point's horizontal
      position, or `None` when the event's touch list is empty. */
  datatype Event = ClickPrev | ClickNext | TouchStart(x: Option<int>) | TouchMove(x: Option<int>) | TouchEnd

  /** What a finished gesture asks for. */
  datatype Swipe = NoSwipe | SwipeNext | SwipePrev

  /** The combined counter text `current/total`. */
  function CounterText(current: nat, total: nat): string {
    Decimal.Show(current) + "/" + Decimal.Show(total)
  }

  /** Position of the first `c` in `s`. */
  function IndexOf(s: string, c: char): (r: Option<nat>)
    ensures r.Some? ==> r.value < |s| && s[r.value] == c && c !in s[..r.value]
    ensures r.None? ==> c !in s
    decreases |s|
  {
    if |s| == 0 then None
    else if s[0] == c then Some(0)
    else match IndexOf(s[1..], c)
      case None => None
      case Some(k) => Some(k + 1)
  }

  /** Reads a combined counter text back into its two numbers. */
  function ParseCounter(s: string): Option<(nat, nat)> {
    match IndexOf(s, '/')
    case None => None
    case Some(k) =>
      match (Decimal.Parse(s[..k]), Decimal.Parse(s[k + 1..]))
      case (Some(a), Some(b)) => Some((a, b))
      case _ => None
  }

  /** A combined counter text whose two halves around the first `/` are canonical numerals. */
  predicate CanonicalCounter(s: string) {
    match IndexOf(s, '/')
    case None => false
    case Some(k) => Decimal.Canonical(s[..k]) && Decimal.Canonical(s[k + 1..])
  }

  /** The combined counter always reads back as the two numbers written into it, and both
      halves are written without leading zeros. */
  lemma ParseCounterText(current: nat, total: nat)
    ensures ParseCounter(CounterText(current, total)) == Some((current, total))
    ensures CanonicalCounter(CounterText(current, total))
  {
    var a := Decimal.Show(current);
    var s := CounterText(current, total);
    assert forall k :: 0 <= k < |a| ==> Decimal.IsDigit(a[k]);
    IndexOfAfterPrefix(a, s);
    assert s[..|a|] == a;
    assert s[|a| + 1..] == Decimal.Show(total);
    Decimal.ParseShow(current);
    Decimal.ParseShow(total);
  }

  /** A canonical combined text is determined by the two numbers it reads as: it is the
      text the page writes for them and no other. */
  lemma CounterTextUnique(s: string, current: nat, total: nat)
    requires CanonicalCounter(s) && ParseCounter(s) == Some((current, total))
    ensures s == CounterText(current, total)
  {
    var k := IndexOf(s, '/').value;
    Decimal.ShowParse(s[..k]);
    Decimal.ShowParse(s[k + 1..]);
    assert s == s[..k] + "/" + s[k + 1..];
  }

  lemma {:induction false} IndexOfAfterPrefix(a: string, s: string)
    requires '/' !in a && |s| > |a| && s[..|a|] == a && s[|a|] == '/'
    ensures IndexOf(s, '/') == Some(|a|)
    decreases |a|
  {
    if |a| > 0 {
      assert s[0] == a[0];
      assert s[1..][..|a| - 1] == a[1..];
      IndexOfAfterPrefix(a[1..], s[1..]);
    }
  }

  /** The counter's text is what the page shows for item `index` of `total`: the total node
      reads the count; the current node reads the 1-based position; failing that, the
      wrapper reads the combined `current/total`. */
  predicate CounterReads(c: Counter, index: nat, total: nat) {
    && (c.total.Some? ==> c.total.value == Decimal.Show(total))
    && (c.current.Some? ==> c.current.value == Decimal.Show(index + 1))
    && (c.current.None? && c.wrapper.Some? ==> c.wrapper.value == CounterText(index + 1, total))
  }

  /** A gallery as the page keeps it between events: the index is in range, exactly that
      item is active and the counter shows it. */
  predicate Valid(g: Gallery) {
    && ExactlyOne(g.items, g.index)
    && CounterReads(g.counter, g.index, |g.items|)
  }

  /** Rewrites the counter for the shown position; the total node is left alone. */
  function UpdateCounter(c: Counter, index: nat, total: nat): (r: Counter)
    ensures r.total == c.total
    ensures r.current.Some? <==> c.current.Some?
    ensures r.wrapper.Some? <==> c.wrapper.Some?
    ensures r.current.Some? ==> Decimal.Parse(r.current.value) == Some(index + 1)
    ensures r.current.Some? ==> Decimal.Canonical(r.current.value)
    ensures c.current.None? && r.wrapper.Some? ==> ParseCounter(r.wrapper.value) == Some((index + 1, total))
    ensures c.current.None? && r.wrapper.Some? ==> CanonicalCounter(r.wrapper.value)
    ensures c.current.Some? || c.wrapper.None? ==> r.wrapper == c.wrapper
    ensures c.current.None? && c.wrapper.None? ==> r == c
  {
    Decimal.ParseShow(index + 1);
    ParseCounterText(index + 1, total);
    if c.current.Some? then c.(current := Some(Decimal.Show(index + 1)))
    else if c.wrapper.Some? then c.(wrapper := Some(CounterText(index + 1, total)))
    else c
  }

  /** Shows item `i`, wrapping by one step at either end, and refreshes the counter. */
  function Show(g: Gallery, i: int): (r: Gallery)
    requires |g.items| > 0
    requires CounterReadsTotal(g.counter, |g.items|)
    ensures Valid(r)
    ensures |r.items| == |g.items|
    ensures i < 0 ==> r.index == |g.items| - 1
    ensures i >= |g.items| ==> r.index == 0
    ensures 0 <= i < |g.items| ==> r.index == i
    ensures r.counter == UpdateCounter(g.counter, r.index, |g.items|)
    ensures r.controls == g.controls && r.touch == g.touch
  {
    var k := WrapStep(i, |g.items|);
    g.(items := Only(|g.items|, k), index := k, counter := UpdateCounter(g.counter, k, |g.items|))
  }

  /** The total node, when present, reads the item count. */
  predicate CounterReadsTotal(c: Counter, total: nat) {
    c.total.Some? ==> c.total.value == Decimal.Show(total)
  }

  /** The gallery a media column sets up: `None` when it has no items (the column or the
      frame is missing, or the frame is empty); otherwise the total node is written, the
      index starts at the last pre-flagged item (0 if none) and that item is shown. */
  function Init(items: seq<bool>, counter: Counter, controls: Controls): (r: Option<Gallery>)
    ensures r.None? <==> |items| == 0
    ensures r.Some? ==> Valid(r.value) && |r.value.items| == |items|
    ensures r.Some? ==> r.value.controls == controls && !r.value.touch.armed
    ensures r.Some? && r.value.counter.total.Some? ==> Decimal.Parse(r.value.counter.total.value) == Some(|items|)
    ensures r.Some? ==> (r.value.counter.total.Some? <==> counter.total.Some?)
    ensures r.Some? ==> (r.value.counter.current.Some? <==> counter.current.Some?)
    ensures r.Some? ==> (r.value.counter.wrapper.Some? <==> counter.wrapper.Some?)
    ensures r.Some? && counter.current.Some? ==> r.value.counter.wrapper == counter.wrapper
    ensures r.Some? ==> r.value.index > 0 ==> items[r.value.index]
    ensures r.Some? ==> forall j :: r.value.index < j < |items| ==> !items[j]
  {
    if |items| == 0 then None
    else
      var c := if counter.total.Some? then counter.(total := Some(Decimal.Show(|items|))) else counter;
      var start := InitialIndex(items);
      Decimal.ParseShow(|items|);
      Some(Show(Gallery(items, start, c, controls, Touch(false, 0, 0)), start))
  }

  /** The index the gallery starts from: the last item already flagged active, else 0. */
  function InitialIndex(items: seq<bool>): (r: nat)
    ensures |items| > 0 ==> r < |items|
    ensures r > 0 ==> r < |items| && items[r]
    ensures forall j :: r < j < |items| ==> !items[j]
    ensures r == 0 && |items| > 0 && !items[0] ==> forall j :: 0 <= j < |items| ==> !items[j]
  {
    match LastFlagged(items)
    case None => 0
    case Some(k) => k
  }

  /** How a finished gesture with displacement `diffX` navigates: a travel of less than the
      threshold does nothing; leftward travel advances and rightward travel goes back. */
  function Classify(diffX: int): (r: Swipe)
    ensures r == NoSwipe <==> -(SwipeThreshold as int) < diffX < SwipeThreshold
    ensures r == SwipeNext <==> diffX <= -(SwipeThreshold as int)
    ensures r == SwipePrev <==> diffX >= SwipeThreshold
  {
    if Dist(diffX, 0) < SwipeThreshold then NoSwipe
    else if diffX < 0 then SwipeNext
    else SwipePrev
  }

  /** The gallery after one event. Buttons and swipes act only if they exist; a touch start
      arms the gesture, a touch move records the displacement from the start, and a touch
      end disarms and navigates at most one step. */
  function Handle(g: Gallery, e: Event): (r: Gallery)
    requires Valid(g)
    ensures Valid(r)
    ensures |r.items| == |g.items| && r.controls == g.controls
    ensures r.counter == UpdateCounter(g.counter, r.index, |g.items|)
    ensures e.ClickPrev? || e.ClickNext? ==> r.touch == g.touch
    ensures e.ClickPrev? && g.controls.prev ==> r.index == WrapStep(g.index - 1, |g.items|)
    ensures e.ClickNext? && g.controls.next ==> r.index == WrapStep(g.index + 1, |g.items|)
    ensures (!e.TouchEnd? && !(e.ClickPrev? && g.controls.prev) && !(e.ClickNext? && g.controls.next))
            ==> r.items == g.items && r.index == g.index && r.counter == g.counter
    ensures e.TouchStart? && g.controls.swipe && e.x.Some? ==> r.touch == Touch(true, e.x.value, 0)
    ensures e.TouchMove? && g.controls.swipe && g.touch.armed && e.x.Some? ==>
              r.touch.armed && r.touch.startX == g.touch.startX && r.touch.diffX == e.x.value - g.touch.startX
    ensures (e.TouchStart? || e.TouchMove?) && (!g.controls.swipe || e.x.None?) ==> r == g
    ensures e.TouchMove? && !g.touch.armed ==> r == g
    ensures !e.TouchStart? && r.touch.armed ==> g.touch.armed
    ensures e.TouchEnd? && g.controls.swipe ==> !r.touch.armed
    ensures e.TouchEnd? && !(g.controls.swipe && g.touch.armed) ==> r == g
    ensures e.TouchEnd? && g.controls.swipe && g.touch.armed ==>
              r.index == match Classify(g.touch.diffX)
                         case NoSwipe => g.index
                         case SwipeNext => WrapStep(g.index + 1, |g.items|)
                         case SwipePrev => WrapStep(g.index - 1, |g.items|)
  {
    match e
    case ClickPrev => if g.controls.prev then Show(g, g.index - 1) else g
    case ClickNext => if g.controls.next then Show(g, g.index + 1) else g
    case TouchStart(x) =>
      if g.controls.swipe && x.Some? then g.(touch := Touch(true, x.value, 0)) else g
    case TouchMove(x) =>
      if g.controls.swipe && g.touch.armed && x.Some? then g.(touch := g.touch.(diffX := x.value - g.touch.startX)) else g
    case TouchEnd =>
      if !(g.controls.swipe && g.touch.armed) then g
      else
        var d := g.(touch := g.touch.(armed := false));
        match Classify(g.touch.diffX)
        case NoSwipe => d
        case SwipeNext => Show(d, g.index + 1)
        case SwipePrev => Show(d, g.index - 1)
  }

  /** Applies a sequence of events in order. */
  function Run(g: Gallery, es: seq<Event>): (r: Gallery)
    requires Valid(g)
    ensures Valid(r) && |r.items| == |g.items| && r.controls == g.controls
    decreases |es|
  {
    if |es| == 0 then g else Run(Handle(g, es[0]), es[1..])
  }

  /** A second touch end without a new touch start changes nothing: one gesture navigates
      at most once. */
  lemma TouchEndOnce(g: Gallery)
    requires Valid(g)
    ensures Handle(Handle(g, TouchEnd), TouchEnd) == Handle(g, TouchEnd)
  {
  }

  /** A touch start followed directly by a touch end, with no move between, is a tap: the
      displacement stays 0 and the shown item does not change. */
  lemma TapDoesNotNavigate(g: Gallery, x: int)
    requires Valid(g)
    ensures var r := Run(g, [TouchStart(Some(x)), TouchEnd]);
            r.index == g.index && r.items == g.items && (g.controls.swipe ==> !r.touch.armed)
  {
    var g1 := Handle(g, TouchStart(Some(x)));
    assert Run(g, [TouchStart(Some(x)), TouchEnd]) == Run(g1, [TouchEnd]);
    assert Run(g1, [TouchEnd]) == Run(Handle(g1, TouchEnd), []);
  }

  /** Only a touch start arms a gesture: a move and an end with nothing armed leave the
      gallery as it was. */
  lemma MoveWithoutStartDoesNothing(g: Gallery, x: Option<int>)
    requires Valid(g) && !g.touch.armed
    ensures Run(g, [TouchMove(x), TouchEnd]) == g
  {
    var g1 := Handle(g, TouchMove(x));
    assert Run(g, [TouchMove(x), TouchEnd]) == Run(g1, [TouchEnd]);
    assert Run(g1, [TouchEnd]) == Run(Handle(g1, TouchEnd), []);
  }

  /** A full gesture on a swipe-enabled gallery: travelling exactly the threshold to the
      left advances one item, one pixel less does nothing. */
  lemma SwipeThresholdIsInclusive(g: Gallery, x: int)
    requires Valid(g) && g.controls.swipe
    ensures Run(g, [TouchStart(Some(x)), TouchMove(Some(x - 40)), TouchEnd]).index == WrapStep(g.index + 1, |g.items|)
    ensures Run(g, [TouchStart(Some(x)), TouchMove(Some(x - 39)), TouchEnd]).index == g.index
    ensures Run(g, [TouchStart(Some(x)), TouchMove(Some(x + 40)), TouchEnd]).index == WrapStep(g.index - 1, |g.items|)
  {
    RunThree(g, TouchStart(Some(x)), TouchMove(Some(x - 40)), TouchEnd);
    RunThree(g, TouchStart(Some(x)), TouchMove(Some(x - 39)), TouchEnd);
    RunThree(g, TouchStart(Some(x)), TouchMove(Some(x + 40)), TouchEnd);
  }

  lemma RunThree(g: Gallery, a: Event, b: Event, c: Event)
    requires Valid(g)
    ensures Run(g, [a, b, c]) == Handle(Handle(Handle(g, a), b), c)
  {
    var es := [a, b, c];
    var g1 := Handle(g, a);
    var g2 := Handle(g1, b);
    assert es[1..] == [b, c] && es[1..][1..] == [c] && es[1..][1..][1..] == [];
    assert Run(g, es) == Run(g1, [b, c]);
    assert Run(g1, [b, c]) == Run(g2, [c]);
    assert Run(g2, [c]) == Run(Handle(g2, c), []);
  }

  /** Three items, none pre-flagged: the gallery starts on the first item, a combined
      counter reads "1/3", and the previous button goes to the third item. */
  lemma ThreeItemScenario()
    ensures var r := Init([false, false, false], Counter(None, None, Some("")), Controls(true, true, false));
            && r.Some? && r.value.index == 0
            && r.value.counter.wrapper == Some("1/3")
            && Handle(r.value, ClickPrev).index == 2
    ensures var r := Init([false, false, false], Counter(Some(""), Some(""), Some("")), Controls(true, true, false));
            && r.Some? && r.value.counter.current == Some("1") && r.value.counter.total == Some("3")
            && r.value.counter.wrapper == Some("")
  {
    assert Decimal.Show(1) == "1" && Decimal.Show(3) == "3";
    assert CounterText(1, 3) == "1/3";
  }

  /** Several pre-flagged items: the last of them is the one shown. */
  lemma LastPreFlaggedWins()
    ensures var r := Init([true, false, true, false], Counter(None, None, None), Controls(false, false, false));
            r.Some? && r.value.index == 2 && r.value.items == [false, false, true, false]
  {
    var r := Init([true, false, true, false], Counter(None, None, None), Controls(false, false, false));
    assert r.value.items[2];
  }
}

=== FILE: recos_mount.dfy ===
/** Relocation of the recommendations block into the product sidebar. The document is
    abstracted to its elements and, for each parent, its ordered list of children; the two
    page-wide queries are inputs (`None` when nothing matches). */
module RecosMount {
  import opened Wrappers

  type NodeId = nat

  /** The class that marks the block as still sitting in its original context. */
  const ContextClass: string := "section--pc-recos"

  datatype Element = Element(tag: string, classes: set<string>)

  datatype Dom = Dom(elements: map<NodeId, Element>, kids: map<NodeId, seq<NodeId>>)

  function Children(d: Dom, p: NodeId): seq<NodeId> {
    if p in d.kids then d.kids[p] else []
  }

  predicate ChildOf(d: Dom, n: NodeId, p: NodeId) {
    n in Children(d, p)
  }

  predicate NoDup(s: seq<NodeId>) {
    forall i, j :: 0 <= i < j < |s| ==> s[i] != s[j]
  }

  /** A tree's child lists: a node has at most one parent and is listed there once. */
  ghost predicate WellFormed(d: Dom) {
    && (forall n, p, q :: ChildOf(d, n, p) && ChildOf(d, n, q) ==> p == q)
    && (forall p :: NoDup(Children(d, p)))
  }

  /** The element the page's query `section.pc-recos.section--pc-recos` accepts. */
  predicate MatchesRecosQuery(e: Element) {
    e.tag == "section" && "pc-recos" in e.classes && ContextClass in e.classes
  }

  /** `s` without `n`, the rest in order. */
  function Remove(s: seq<NodeId>, n: NodeId): (r: seq<NodeId>)
    ensures forall m :: m in r <==> m in s && m != n
    ensures NoDup(s) ==> NoDup(r)
    ensures n !in s ==> r == s
    ensures NoDup(s) && n in s ==> exists k :: 0 <= k < |s| && s[k] == n && r == s[..k] + s[k + 1..]
    decreases |s|
  {
    if |s| == 0 then []
    else if s[0] == n then
      var t := Remove(s[1..], n);
      assert NoDup(s) ==> n !in s[1..];
      assert s[..0] + s[1..] == s[1..];
      t
    else
      var t := Remove(s[1..], n);
      ConsNoDup(s, t);
      ConsRemoveOrder(s, n, t);
      [s[0]] + t
  }

  lemma ConsRemoveOrder(s: seq<NodeId>, n: NodeId, t: seq<NodeId>)
    requires |s| > 0 && s[0] != n
    requires NoDup(s[1..]) && n in s[1..] ==>
               exists k :: 0 <= k < |s[1..]| && s[1..][k] == n && t == s[1..][..k] + s[1..][k + 1..]
    ensures NoDup(s) && n in s ==> exists k :: 0 <= k < |s| && s[k] == n && [s[0]] + t == s[..k] + s[k + 1..]
  {
    if NoDup(s) && n in s {
      var u := s[1..];
      assert n in u;
      assert NoDup(u) by {
        forall i, j | 0 <= i < j < |u| ensures u[i] != u[j] {
          assert u[i] == s[i + 1] && u[j] == s[j + 1];
        }
      }
      var k :| 0 <= k < |u| && u[k] == n && t == u[..k] + u[k + 1..];
      assert s[..k + 1] == [s[0]] + u[..k];
      assert s[k + 2..] == u[k + 1..];
      assert s[k + 1] == n;
      assert [s[0]] + t == s[..k + 1] + s[k + 2..];
    }
  }

  lemma ConsNoDup(s: seq<NodeId>, t: seq<NodeId>)
    requires |s| > 0
    requires forall m :: m in t ==> m in s[1..]
    requires NoDup(s[1..]) ==> NoDup(t)
    ensures NoDup(s) ==> NoDup([s[0]] + t)
  {
    if NoDup(s) {
      assert s[0] !in s[1..];
      var c := [s[0]] + t;
      forall i, j | 0 <= i < j < |c| ensures c[i] != c[j] {
        if i == 0 {
          assert c[j] in t;
        } else {
          assert c[i] == t[i - 1] && c[j] == t[j - 1];
        }
      }
    }
  }

  /** `appendChild` of `r` to `s`, followed by removing the context class from `r`. */
  function Move(d: Dom, s: NodeId, r: NodeId): Dom
    requires r in d.elements
  {
    var kids := (map p | p in d.kids :: Remove(d.kids[p], r))[s := Remove(Children(d, s), r) + [r]];
    var e := d.elements[r];
    Dom(d.elements[r := e.(classes := e.classes - {ContextClass})], kids)
  }

  lemma MoveChildren(d: Dom, s: NodeId, r: NodeId)
    requires r in d.elements
    ensures Children(Move(d, s, r), s) == Remove(Children(d, s), r) + [r]
    ensures forall p :: p != s ==> Children(Move(d, s, r), p) == Remove(Children(d, p), r)
  {
  }

  /** The relocation. Nothing happens when either element is missing or the block already
      sits directly in the sidebar. Otherwise the block becomes the sidebar's last child and
      leaves its old parent, every other node keeps its parent, and the block loses the
      context class and nothing else. */
  function Mount(d: Dom, sidebar: Option<NodeId>, recos: Option<NodeId>): (r: Dom)
    requires sidebar.Some? && recos.Some? ==> sidebar.value != recos.value && recos.value in d.elements
    ensures WellFormed(d) ==> WellFormed(r)
    ensures sidebar.None? || recos.None? || ChildOf(d, recos.value, sidebar.value) ==> r == d
    ensures sidebar.Some? && recos.Some? ==>
              var s, b := sidebar.value, recos.value;
              && ChildOf(r, b, s)
              && (forall m, p :: m != b ==> (ChildOf(r, m, p) <==> ChildOf(d, m, p)))
              && r.elements.Keys == d.elements.Keys
              && (forall m :: m in d.elements && m != b ==> r.elements[m] == d.elements[m])
              && r.elements[b].tag == d.elements[b].tag
    ensures sidebar.Some? && recos.Some? && !ChildOf(d, recos.value, sidebar.value) ==>
              var s, b := sidebar.value, recos.value;
              && Children(r, s) == Children(d, s) + [b]
              && (forall p :: p != s ==> Children(r, p) == Remove(Children(d, p), b))
              && (forall p :: p != s ==> !ChildOf(r, b, p))
              && r.elements[b].classes == d.elements[b].classes - {ContextClass}
  {
    if sidebar.None? || recos.None? then d
    else
      var s, b := sidebar.value, recos.value;
      if ChildOf(d, b, s) then d
      else
        var m := Move(d, s, b);
        MoveChildren(d, s, b);
        MoveKeepsWellFormed(d, s, b);
        m
  }

  lemma MoveKeepsWellFormed(d: Dom, s: NodeId, b: NodeId)
    requires b in d.elements && s != b
    ensures WellFormed(d) ==> WellFormed(Move(d, s, b))
  {
    var m := Move(d, s, b);
    MoveChildren(d, s, b);
    if WellFormed(d) {
      forall n, p, q | ChildOf(m, n, p) && ChildOf(m, n, q)
        ensures p == q
      {
        if n != b {
          assert ChildOf(d, n, p) && ChildOf(d, n, q);
        }
      }
      forall p
        ensures NoDup(Children(m, p))
      {
        assert NoDup(Children(d, p));
        if p == s {
          var c := Remove(Children(d, s), b);
          assert NoDup(c) && b !in c;
          assert Children(m, s) == c + [b];
        }
      }
    }
  }

  /** The sidebar's marker class. */
  const SidebarClass: string := "pc-pdp__sidebar"

  /** The two selectors the relocation looks up. */
  datatype Selector = SidebarQuery | RecosQuery

  /** Node `n` exists and its element matches selector `q`. */
  predicate Hit(d: Dom, n: NodeId, q: Selector) {
    n in d.elements &&
    match q
    case SidebarQuery => SidebarClass in d.elements[n].classes
    case RecosQuery => MatchesRecosQuery(d.elements[n])
  }

  /** Position in the document order `order` of the first node that matches `q`. */
  function QueryAt(d: Dom, order: seq<NodeId>, q: Selector): (r: Option<nat>)
    ensures r.Some? ==> r.value < |order| && Hit(d, order[r.value], q)
    ensures r.Some? ==> forall j :: 0 <= j < r.value ==> !Hit(d, order[j], q)
    ensures r.None? ==> forall j :: 0 <= j < |order| ==> !Hit(d, order[j], q)
    decreases |order|
  {
    if |order| == 0 then None
    else if Hit(d, order[0], q) then Some(0)
    else match QueryAt(d, order[1..], q)
      case None => None
      case Some(k) => Some(k + 1)
  }

  /** `document.querySelector`: the first node of the document order that matches `q`, or
      `None` when nothing does. */
  function Query(d: Dom, order: seq<NodeId>, q: Selector): (r: Option<NodeId>)
    ensures r.Some? ==> r.value in order && Hit(d, r.value, q)
    ensures r.None? <==> forall j :: 0 <= j < |order| ==> !Hit(d, order[j], q)
  {
    match QueryAt(d, order, q)
    case None => None
    case Some(k) => Some(order[k])
  }

  /** The relocation can run without a DOM exception: the two queries do not pick the same
      element. */
  predicate RelocateDefined(d: Dom, order: seq<NodeId>) {
    var s, b := Query(d, order, SidebarQuery), Query(d, order, RecosQuery);
    s.Some? && b.Some? ==> s.value != b.value
  }

  /** The whole page-load step: both queries over the document order, then the move. */
  function Relocate(d: Dom, order: seq<NodeId>): (r: Dom)
    requires RelocateDefined(d, order)
    ensures WellFormed(d) ==> WellFormed(r)
    ensures (forall j :: 0 <= j < |order| ==> !Hit(d, order[j], RecosQuery)) ==> r == d
    ensures (forall j :: 0 <= j < |order| ==> !Hit(d, order[j], SidebarQuery)) ==> r == d
    ensures Query(d, order, SidebarQuery).Some? && Query(d, order, RecosQuery).Some? ==>
              ChildOf(r, Query(d, order, RecosQuery).value, Query(d, order, SidebarQuery).value)
  {
    Mount(d, Query(d, order, SidebarQuery), Query(d, order, RecosQuery))
  }

  /** At most one element in the document answers the recommendations query. */
  predicate SingleSection(d: Dom) {
    forall m, n :: m in d.elements && n in d.elements && Hit(d, m, RecosQuery) && Hit(d, n, RecosQuery) ==> m == n
  }

  /** With a single recommendations section, running the page-load step again changes
      nothing. When the first run moved the block, no element answers the query any more,
      so a later run is a no-op whatever the document order then is. */
  lemma RelocateIdempotent(d: Dom, order: seq<NodeId>)
    requires RelocateDefined(d, order) && SingleSection(d)
    ensures var r := Relocate(d, order);
            && RelocateDefined(r, order)
            && Relocate(r, order) == r
    ensures var r := Relocate(d, order);
            r != d ==> forall n :: !Hit(r, n, RecosQuery)
  {
    var r := Relocate(d, order);
    var s, b := Query(d, order, SidebarQuery), Query(d, order, RecosQuery);
    if r != d {
      forall n ensures !Hit(r, n, RecosQuery) {
        if n != b.value && n in r.elements {
          assert !Hit(d, n, RecosQuery);
        }
      }
    }
  }

  /** Two recommendations sections: each run moves one more, so the step is not idempotent. */
  lemma TwoSectionsMoveTwice()
    ensures var sec := Element("section", {"pc-recos", ContextClass});
            var d := Dom(map[0 := Element("aside", {SidebarClass}), 1 := sec, 2 := sec], map[]);
            var once := Relocate(d, [0, 1, 2]);
            && Children(once, 0) == [1]
            && RelocateDefined(once, [0, 1, 2])
            && Children(Relocate(once, [0, 1, 2]), 0) == [1, 2]
  {
    var sec := Element("section", {"pc-recos", ContextClass});
    var d := Dom(map[0 := Element("aside", {SidebarClass}), 1 := sec, 2 := sec], map[]);
    assert Hit(d, 0, SidebarQuery) && Hit(d, 1, RecosQuery);
    assert Query(d, [0, 1, 2], SidebarQuery) == Some(0);
    assert Query(d, [0, 1, 2], RecosQuery) == Some(1);
    var once := Relocate(d, [0, 1, 2]);
    assert Hit(once, 0, SidebarQuery) && !Hit(once, 0, RecosQuery) && !Hit(once, 1, RecosQuery) && Hit(once, 2, RecosQuery);
    assert Query(once, [0, 1, 2], SidebarQuery) == Some(0);
    assert Query(once, [0, 1, 2], RecosQuery) == Some(2);
  }

  /** With the same two handles, a second relocation changes nothing: the parent check
      stops it. */
  lemma MountIdempotent(d: Dom, sidebar: Option<NodeId>, recos: Option<NodeId>)
    requires sidebar.Some? && recos.Some? ==> sidebar.value != recos.value && recos.value in d.elements
    ensures Mount(Mount(d, sidebar, recos), sidebar, recos) == Mount(d, sidebar, recos)
  {
  }

  /** After a move the block no longer answers the page's recommendations query, and in a
      well-formed document it is listed exactly once among the sidebar's children. */
  lemma MovedBlockIsSettled(d: Dom, s: NodeId, b: NodeId)
    requires WellFormed(d) && s != b && b in d.elements && !ChildOf(d, b, s)
    ensures var r := Mount(d, Some(s), Some(b));
            && !MatchesRecosQuery(r.elements[b])
            && forall i, j :: 0 <= i < j < |Children(r, s)| ==> Children(r, s)[i] != Children(r, s)[j]
  {
  }
}

=== FILE: swatches.dfy ===
/** Swatch selection: within each option group of the product sidebar, clicking a tile makes
    it the only active tile of its group and copies its option value into the group's label. */
module Swatches {
  import opened Wrappers

  /** A tile: whether it carries `is-active`, and its `data-option-value` attribute
      (`None` when the attribute is absent). */
  datatype Tile = Tile(active: bool, value: Option<string>)

  /** An option group: its tiles in document order and the text of its current-value
      label, `caption` (`None` when the group has no label node). */
  datatype Group = Group(tiles: seq<Tile>, caption: Option<string>)

  /** JavaScript truthiness of the attribute: present and non-empty. */
  predicate HasValue(t: Tile) {
    t.value.Some? && t.value.value != ""
  }

  /** A click on tile `t` of group `g`. */
  function Click(g: Group, t: nat): (r: Group)
    requires t < |g.tiles|
    ensures |r.tiles| == |g.tiles|
    ensures forall j :: 0 <= j < |r.tiles| ==> (r.tiles[j].active <==> j == t)
    ensures forall j :: 0 <= j < |r.tiles| ==> r.tiles[j].value == g.tiles[j].value
    ensures g.caption.Some? && HasValue(g.tiles[t]) ==> r.caption == g.tiles[t].value
    ensures g.caption.None? || !HasValue(g.tiles[t]) ==> r.caption == g.caption
  {
    var tiles := seq(|g.tiles|, j requires 0 <= j < |g.tiles| => g.tiles[j].(active := j == t));
    var caption := if g.caption.Some? && HasValue(g.tiles[t]) then g.tiles[t].value else g.caption;
    Group(tiles, caption)
  }

  /** A click on tile `t` of group `gi` in the sidebar: that group is updated, every other
      group is left exactly as it was. */
  function ClickInSidebar(groups: seq<Group>, gi: nat, t: nat): (r: seq<Group>)
    requires gi < |groups| && t < |groups[gi].tiles|
    ensures |r| == |groups|
    ensures forall k :: 0 <= k < |r| && k != gi ==> r[k] == groups[k]
    ensures |r[gi].tiles| == |groups[gi].tiles|
    ensures forall j :: 0 <= j < |r[gi].tiles| ==> (r[gi].tiles[j].active <==> j == t)
  {
    groups[gi := Click(groups[gi], t)]
  }

  /** Clicking the same tile twice is the same as clicking it once. */
  lemma ClickIdempotent(g: Group, t: nat)
    requires t < |g.tiles|
    ensures Click(Click(g, t), t) == Click(g, t)
  {
  }

  /** Of two clicks the second decides which tile is active; the label shows the second
      tile's value when it has one, and otherwise keeps what the first click left. */
  lemma LastClickWins(g: Group, t: nat, u: nat)
    requires t < |g.tiles| && u < |g.tiles|
    ensures Click(Click(g, t), u).tiles == Click(g, u).tiles
    ensures HasValue(g.tiles[u]) ==> Click(Click(g, t), u).caption == Click(g, u).caption
    ensures !HasValue(g.tiles[u]) ==> Click(Click(g, t), u).caption == Click(g, t).caption
  {
  }

  /** A tile whose attribute is empty leaves the label as it was. */
  lemma EmptyValueKeepsLabel()
    ensures Click(Group([Tile(false, Some("Gold")), Tile(true, Some(""))], Some("Silver")), 1).caption == Some("Silver")
    ensures Click(Group([Tile(false, Some("Gold")), Tile(true, Some(""))], Some("Silver")), 0).caption == Some("Gold")
  {
  }
}

=== FILE: wrappers.dfy ===
/** The optional value used throughout the model for an element a query may not find
    (`querySelector` returning null) or an attribute that may be absent. */
module Wrappers {

  datatype Option<+T> = None | Some(value: T)
}
